=== FILE: README.md ===
# http-markup-server: a verified model of the request handler

`http-markup-server` is a small development server. It serves a directory of
EJS markup templates over HTTP. For every `GET` it resolves the request path to
a template, refuses paths whose extension is not on an allow-list, renders the
template, and for a directory request falls back through a configured list of
index files while the template lookup keeps failing. At start-up it folds
`--port=`, `--host=` and `--browse=` arguments over the configured values.

This project models that core in Dafny, as pure functions over immutable
values:

- `posix_path.dfy` (`PosixPath`): Node's POSIX `path.join`, `path.basename`
  and `path.extname` over `/`-separated strings. `Split` is `s.split('/')`,
  `Collapse` resolves `.` and `..` names left to right, and `Normalize` is
  `path.normalize`. Lemmas show that `Split` and `JoinWith` are inverses, and
  that normalising an absolute path leaves no `..` or `.` name.
- `configuration.dfy` (`Configuration`): the configuration value and the
  JavaScript values (`Val`) its settings may hold.
- `resolver.dfy` (`Resolver`): the first half of the `app.get('*')` handler.
  A path ending in `/` is a directory request for the first index file.
  Otherwise the path is a file request, accepted only when its extension is
  non-empty and on the allow-list. A directory request with an empty index
  list is `NoIndexFile`: `shift()` yields `undefined` and `path.join` throws.
  `PosixPath` follows the `path` module of Node 0.10 and later, whose
  `path.join` throws on a non-string argument.
- `render.dfy` (`Render`): `tryRender`, the only retry logic. The resolver
  hands it the pending index files with their templates already joined.
  `path.join` is pure, so these are the templates the retry computes.
  Rendering is an oracle `Renderer` that returns `Rendered(html)`, `LookupFailed` or
  `RenderFailed(message)`. The retry is a recursion on the shrinking list of
  pending index files. `TryRenderFollowsCandidates` describes every run
  completely in terms of the list of candidate render calls.
  `curNavPos` is `CurNavPos`.
- `handler.dfy` (`Handler`): the complete handler. A reply is a status, a
  body and the console line it leaves, or an exception that escapes to the
  framework. It also holds the end-to-end examples (`GET /`, `/secret`,
  `/style.css`, `/missing.html`, and a two-entry index list).
- `args.dfy` (`Args`): the start-up argument fold.

The configured index list is never changed. `Config` is an immutable value,
and the resolver hands the fallback the entries of `indexFiles[1..]`.

Two details of the handler's code, stated as facts about the model:

- `curNavPos` normalises its `withIndexPage` argument and then ignores it. It
  always strips the current file name when that name ends the path
  (`CurNavPosIgnoresArgument`).
- `allowable_extensions` is scanned as an array. `ExtensionAllowed` shows
  that the scan answers exactly membership in the list.

## Model

| member | source | states |
|---|---|---|
| PosixPath.Extname | bin/http-markup-server.js:103 | `path.extname`: empty exactly when the base name has no `.` after its first character or is `..`. Otherwise it starts with `.`, holds no other `.`, and is a proper suffix of the base name. |
| PosixPath.Basename | bin/http-markup-server.js:118 | `path.basename`: empty, or a single name without separators. |
| PosixPath.BasenameEndsPath | bin/http-markup-server.js:118 | If a non-empty path does not end in `/`, its base name is non-empty and ends the path, right after a `/` or as the whole path. |
| PosixPath.Normalize | bin/http-markup-server.js:119 | `path.normalize`: never empty, absolute exactly when its input is, and never starts with two separators. |
| PosixPath.Join | bin/http-markup-server.js:97-119 | `path.join`: never empty, and never starts with two separators. For an absolute first argument, `NamesOfJoinSingle` gives the names of the one-argument form and `NamesOfJoinAbsolute` those of the two-argument form. |
| PosixPath.NamesOfNormalizeAbsolute | bin/http-markup-server.js:119 | Normalising an absolute path keeps exactly the names that `.`/`..` resolution keeps. It never climbs above the root. |
| PosixPath.CollapseKeepsNames | bin/http-markup-server.js:97 | Resolving `.` and `..` keeps only names and drops every `.`. For an absolute path it drops every `..` too. |
| PosixPath.JoinAbsoluteStaysInside | bin/http-markup-server.js:97-98 | Joining onto an absolute path and dropping the leading `/` never gives a `..` or `.` name. |
| PosixPath.NamesAcrossSep | bin/http-markup-server.js:97 | The names of `a/b` are the names of `a` followed by those of `b`. |
| PosixPath.NamesOfJoinSingle | bin/http-markup-server.js:119 | `path.join(p)` with `p` absolute has the names of `p`, with `.` and `..` resolved and none climbing above the root. |
| PosixPath.NamesOfJoinAbsolute | bin/http-markup-server.js:97 | `path.join(p, f)` with `p` absolute has as names those of `p` then those of `f`, with `.` and `..` resolved and none climbing above the root. An empty `f` is skipped and adds no name. |
| PosixPath.SplitJoinWith | bin/http-markup-server.js:97 | Joining separator-free pieces with `/` and splitting again gives the same pieces back. |
| PosixPath.JoinWithSplit | bin/http-markup-server.js:97 | Splitting on `/` and joining with `/` gives the same string back. |
| Resolver.IndexTemplate | bin/http-markup-server.js:97-98 | The template for an index file never starts with `/`. |
| Resolver.IndexTemplateNames | bin/http-markup-server.js:97-98 | For an absolute request path, the index template's names are the directory's names followed by the index file's, with `.` and `..` resolved. |
| Resolver.FileTemplate | bin/http-markup-server.js:119-120 | The template for a file request never starts with `/`. |
| Resolver.FileTemplateNames | bin/http-markup-server.js:119-120 | For an absolute request path, the file template's names are the path's names, with `.` and `..` resolved. |
| Resolver.ExtensionAllowed | bin/http-markup-server.js:111-124 | The scan over the allowed extensions finds a match exactly when the extension is in the list. |
| Resolver.Resolve | bin/http-markup-server.js:89-136 | The resolver throws exactly for a directory path with an empty index list. It forbids exactly the file paths whose extension is empty or not allowed. A directory request gets the first index file and the template `join(path, first)`. The rest of the list stays pending, each entry with its template. A file request gets its base name and `join(path)`, and nothing pending. No template, current or pending, starts with `/`. |
| Resolver.IndexAttemptsRelative | bin/http-markup-server.js:169-171 | Every index file's template is relative. |
| Resolver.DirectoryAttempts | bin/http-markup-server.js:91-99 | For a directory request, the first template followed by the pending ones are the index files' templates, in list order. |
| Resolver.ExtensionlessIsForbidden | bin/http-markup-server.js:103-107 | A file path without an extension gets 403 whatever the allow-list holds, even one that lists `""`. |
| Resolver.ResolvedStaysInside | bin/http-markup-server.js:94-120 | For an absolute request path, the first template holds no `..` or `.` name. |
| Render.CurNavPos | bin/http-markup-server.js:144-160 | `curNavPos` returns the path with the current file name cut off when that name ends the path. Otherwise it returns the path unchanged. |
| Render.CurNavPosIgnoresArgument | bin/http-markup-server.js:146-147 | The `withIndexPage` argument does not change the result. |
| Render.CurNavPosOfFileRequest | bin/http-markup-server.js:149-156 | For a file request, whose current file name is the base name of the path, `curNavPos` gives the directory part of the path. That part is empty or ends in `/`, and the base name follows it. |
| Render.Advance | bin/http-markup-server.js:169-171 | Taking the next index file makes it the current file and template. It leaves the rest of the list pending. |
| Render.TryRender | bin/http-markup-server.js:138-196 | Each request makes at least one render call. A directory request makes at most 1 + the number of pending files, and a file request makes exactly one. The first call uses the resolved template. When the current and pending templates are relative, every template handed to the renderer is relative. |
| Render.TryRenderFollowsCandidates | bin/http-markup-server.js:164-192 | The calls made are a prefix of the candidates, in order. Every call before the last failed its lookup. The last outcome decides the result: page, 404 or failure. A failed lookup ends the request only after the last candidate. |
| Render.PageIsLastOutcome | bin/http-markup-server.js:163-193 | A page is what the last render call produced. Every call before it failed its lookup. |
| Render.AllLookupsFail | bin/http-markup-server.js:164-181 | When every candidate's lookup fails, every candidate is tried, in order, and the result is not-found. |
| Render.NoRetryAfterRenderError | bin/http-markup-server.js:183-188 | A render error other than a failed lookup is never followed by another call. The request fails with that error. |
| Render.FileRequestSingleAttempt | bin/http-markup-server.js:164-192 | A file request makes exactly one call. A failed lookup gives not-found, another error gives a failure, and a page is returned as rendered. |
| Handler.Respond | bin/http-markup-server.js:175-192 | A page gives 200 with the page as body and no console line. Not-found gives 404 `"404 Not Found"`, with the "404 status." warning exactly when security logging is on. A failure gives 500 with body `"500 Internal Server Error\n" + message` and an error line on the console. |
| Handler.Handle | bin/http-markup-server.js:83-198 | The handler throws exactly for a directory path with no index files. It returns 403 `"403 Forbidden"` exactly for file paths without an allowed extension. Statuses are 200, 403, 404 or 500. A 403 or 404 logs a warning exactly when security logging is on. A 404 has body `"404 Not Found"` and comes only from a fallback that ended not-found. A 500 comes only from a fallback that ended with a render error, whose message is in the body and on the error line. A 200 carries the page that ended the fallback. |
| Handler.PageComesFromRenderer | bin/http-markup-server.js:162-193 | A 200 reply carries what the renderer produced for the last template it was given. Every earlier template failed its lookup. |
| Handler.PageEndsFallback | bin/http-markup-server.js:162-192 | A 200 reply comes from a resolved request whose fallback ended with that page. |
| Handler.SecondIndexFileServes | bin/http-markup-server.js:167-172 | With index list `["index.html", "home.html"]` and any renderer for which `index.html` misses its lookup and `home.html` renders, there are two calls in that order and the reply is 200 with the page. |
| Handler.DirectoryFallback | bin/http-markup-server.js:164-181 | For a directory request, the index files are tried in list order, each at most once, with at most as many calls as index files. Every template is relative. If every lookup fails, the result is not-found after exactly one call per index file. |
| Handler.RenderErrorStopsDirectoryRequest | bin/http-markup-server.js:183-188 | For any renderer that gives a render error on a directory request's first index file, the reply is 500 with that message after one call. |
| Handler.DirectoryNotFound | bin/http-markup-server.js:164-181 | When every index file of a directory request fails its lookup, there is one call per index file and the reply is 404 `"404 Not Found"`, with the "404 status." warning exactly when security logging is on. |
| Handler.RefusedReply | bin/http-markup-server.js:103-131 | A file path whose extension is missing or not allowed gets 403 `"403 Forbidden"`, with the "Hacking attempt!" warning exactly when security logging is on. |
| Handler.MissingTemplateReply | bin/http-markup-server.js:175-179 | A file path with an allowed extension whose template is missing gets 404 `"404 Not Found"`, with the "404 status." warning exactly when security logging is on. |
| Handler.RootServesIndex | bin/http-markup-server.js:94-99 | `GET /` with index list `["index.html"]` and any renderer for which template `index.html` renders uses that template and replies 200 with its page. |
| Handler.ExtensionlessPathRefused | bin/http-markup-server.js:103-107 | `GET /secret` gets 403 `"403 Forbidden"`. |
| Handler.DisallowedExtensionRefused | bin/http-markup-server.js:126-131 | `GET /style.css` with only `.html` allowed gets 403. |
| Handler.MissingFileNotFound | bin/http-markup-server.js:175-179 | `GET /missing.html` with `.html` allowed and no such template gets 404. |
| Args.FlagOf | bin/http-markup-server.js:28-36 | An argument matches a flag only when it starts with that flag's prefix. It matches none exactly when it starts with none of the three. |
| Args.PrefixesExclusive | bin/http-markup-server.js:28-36 | No argument starts with two different flags. |
| Args.BrowseValue | bin/http-markup-server.js:38-48 | The lower-cased `yes`, `y` or `1` gives `true`. The lower-cased `no`, `n` or `0` gives `false`. Any other value stays as the lower-cased string. |
| Args.BrowseIgnoresCase | bin/http-markup-server.js:38 | The case of the `--browse=` value does not matter. |
| Args.ToLower | bin/http-markup-server.js:38 | Lower-casing keeps the length and lowers each character. |
| Args.ApplyArg | bin/http-markup-server.js:50-54 | An argument is rejected exactly when it starts with no known flag. |
| Args.ParseArgs | bin/http-markup-server.js:26-56 | Parsing succeeds exactly when every argument starts with a known flag. Otherwise the error names the first unknown argument. |
| Args.FirstUnknownReported | bin/http-markup-server.js:50-53 | The first unknown argument is the one reported, and the error text is `Unknown argument "` + that argument + `"`. |
| Args.StartupOptions | bin/http-markup-server.js:20-26 | Only the arguments after the first two are read. With none, the configured values stand. |
| Args.UnnamedSettingKept | bin/http-markup-server.js:20-22 | A setting that no argument names keeps its configured value. |
| Args.LastArgumentWins | bin/http-markup-server.js:26-56 | The last argument naming a setting decides it. Port and host take the text after the flag verbatim. |

## Left out

- Express wiring is not modelled: static mounts, `app.configure`, the view engine settings and the favicon middleware. The favicon test compares the value with the literal `'string'`. That is part of the wiring, not the request algorithm.
- Reading and parsing the JSON configuration file is left out. The configuration is an input value.
- The configuration holds only strings in `index_files` and `allowable_extensions`. A non-string index entry would make `path.join` throw, at line 97 for the first entry or at the retry for a later one. The model does not represent that case.
- `security_log` may be any JSON value, and the handler tests its truthiness (lines 106, 129 and 178). `Config.securityLog` is that truthiness as a `bool`.
- URL resolution and parsing are left out. The handler takes as input the pathname as `url.parse` returns it (lines 85-87), which is not percent-decoded. The parsed `location` object the template receives is not part of `Vars`: it is fixed per request, so the renderer oracle can close over it.
- EJS rendering and the `/failed to lookup view/i` match on the error text are not modelled. The renderer is an oracle that returns a tagged outcome.
- The `process.nextTick` scheduling is left out. A retry is a plain recursive call.
- Logging: the model records which console line a request leaves, but not the `req` or `err` object printed with it.
- `app.listen`, the root URL string and the `xdg-opens` browser launch are I/O and process start-up, so they are left out.
- Resolver.Resolve: for a directory request with an empty index list, the model only records that an exception escapes (`Thrown`). The framework's reply to it is outside this file.
- Args.ToLower: lowers only the ASCII letters. JavaScript's `toLowerCase` also maps other Unicode letters.
- PosixPath.Normalize: the relative-path branches (`.` and `./` for a path that normalises to nothing) follow current Node. The handler only normalises absolute paths, so no request reaches them.
- PosixPath.Extname: JavaScript strings are UTF-16 code units, while the model works on Dafny characters.

=== FILE: args.dfy ===
/** The command-line fold at start-up: each argument `--port=…`, `--host=…`
    or `--browse=…` overrides the configured value, and any other argument
    stops the server with an "Unknown argument" error. */
module Args {
  import opened Configuration

  datatype Flag = Port | Host | Browse

  function Prefix(f: Flag): string {
    match f
    case Port => "--port="
    case Host => "--host="
    case Browse => "--browse="
  }

  /** The three settings the command line may override. */
  datatype Options = Options(port: Val, host: Val, browse: Val)

  function Get(o: Options, f: Flag): Val {
    match f
    case Port => o.port
    case Host => o.host
    case Browse => o.browse
  }

  function Set(o: Options, f: Flag, v: Val): (o': Options)
    ensures Get(o', f) == v
    ensures forall g :: g != f ==> Get(o', g) == Get(o, g)
  {
    match f
    case Port => o.(port := v)
    case Host => o.(host := v)
    case Browse => o.(browse := v)
  }

  /** The values the configuration file supplies before any argument. */
  function Initial(c: Config): Options {
    Options(c.port, c.host, c.browse)
  }

  predicate HasPrefix(s: string, prefix: string) {
    |prefix| <= |s| && s[..|prefix|] == prefix
  }

  /** True when `arg` starts with one of the three flags. */
  predicate Known(arg: string) {
    HasPrefix(arg, Prefix(Port)) || HasPrefix(arg, Prefix(Host)) || HasPrefix(arg, Prefix(Browse))
  }

  datatype FlagMatch = NoFlag | Matched(flag: Flag)

  /** The flag that `arg` starts with, checked in the order port, host,
      browse (no argument starts with two of them). */
  function FlagOf(arg: string): (m: FlagMatch)
    ensures m.Matched? ==> HasPrefix(arg, Prefix(m.flag))
    ensures m.NoFlag? <==> !Known(arg)
  {
    if HasPrefix(arg, Prefix(Port)) then Matched(Port)
    else if HasPrefix(arg, Prefix(Host)) then Matched(Host)
    else if HasPrefix(arg, Prefix(Browse)) then Matched(Browse)
    else NoFlag
  }

  /** `toLowerCase` on one character, for the ASCII letters. */
  function LowerChar(c: char): char {
    if 'A' <= c <= 'Z' then (c as int + 32) as char else c
  }

  function ToLower(s: string): (r: string)
    ensures |r| == |s|
    ensures forall i :: 0 <= i < |s| ==> r[i] == LowerChar(s[i])
  {
    if s == [] then [] else [LowerChar(s[0])] + ToLower(s[1..])
  }

  const TrueWords: seq<string> := ["yes", "y", "1"]
  const FalseWords: seq<string> := ["no", "n", "0"]

  /** The value of `--browse=raw`: lower-cased, then the yes-words become
      `true`, the no-words `false`, and anything else stays a string. */
  function BrowseValue(raw: string): (v: Val)
    ensures v == Bool(true) <==> ToLower(raw) in TrueWords
    ensures v == Bool(false) <==> ToLower(raw) in FalseWords
    ensures !v.Bool? ==> v == Str(ToLower(raw))
  {
    var s := ToLower(raw);
    if s == "yes" || s == "y" || s == "1" then Bool(true)
    else if s == "no" || s == "n" || s == "0" then Bool(false)
    else Str(s)
  }

  /** The value an argument with flag `f` and text `suffix` after the flag
      sets: port and host take the text as it is. */
  function Decode(f: Flag, suffix: string): Val {
    if f == Browse then BrowseValue(suffix) else Str(suffix)
  }

  datatype Parsed = Parsed(options: Options) | UnknownArgument(arg: string) {
    /** The text of the error thrown for an unknown argument. */
    function Message(): string
      requires UnknownArgument?
    {
      "Unknown argument \"" + arg + "\""
    }
  }

  /** One step of the fold. */
  function ApplyArg(o: Options, arg: string): (r: Parsed)
    ensures r.UnknownArgument? <==> !Known(arg)
  {
    match FlagOf(arg)
    case NoFlag => UnknownArgument(arg)
    case Matched(f) => Parsed(Set(o, f, Decode(f, arg[|Prefix(f)|..])))
  }

  /** The fold over the arguments after the program name; the first unknown
      argument ends it. */
  function ParseArgs(o: Options, args: seq<string>): (r: Parsed)
    ensures r.Parsed? <==> forall i :: 0 <= i < |args| ==> Known(args[i])
    ensures r.UnknownArgument? ==>
      (exists i :: 0 <= i < |args| && r.arg == args[i] && !Known(args[i])
         && forall j :: 0 <= j < i ==> Known(args[j]))
    decreases |args|
  {
    if args == [] then Parsed(o)
    else
      match ApplyArg(o, args[0])
      case UnknownArgument(a) => UnknownArgument(a)
      case Parsed(o') =>
        var r := ParseArgs(o', args[1..]);
        assert r.UnknownArgument? ==>
          (exists i :: 1 <= i < |args| && r.arg == args[i] && !Known(args[i])
             && forall j :: 0 <= j < i ==> Known(args[j])) by {
          if r.UnknownArgument? {
            var i :| 0 <= i < |args[1..]| && r.arg == args[1..][i] && !Known(args[1..][i])
              && forall j :: 0 <= j < i ==> Known(args[1..][j]);
            assert forall j :: 1 <= j < i + 1 ==> Known(args[j]) by {
              forall j | 1 <= j < i + 1 ensures Known(args[j]) {
                assert args[j] == args[1..][j - 1];
              }
            }
          }
        }
        r
  }

  /** The start-up options: the configured values, overridden by the
      arguments after the runtime and script names (`process.argv.slice(2)`). */
  function StartupOptions(c: Config, argv: seq<string>): (r: Parsed)
    ensures r.Parsed? <==> forall i :: 2 <= i < |argv| ==> Known(argv[i])
    ensures r.Parsed? && |argv| <= 2 ==> r.options == Initial(c)
  {
    var args := if |argv| <= 2 then [] else argv[2..];
    assert forall i :: 0 <= i < |args| ==> args[i] == argv[i + 2];
    ParseArgs(Initial(c), args)
  }

  /** A setting no argument names keeps its configured value. */
  lemma {:induction false} UnnamedSettingKept(o: Options, args: seq<string>, f: Flag)
    requires forall i :: 0 <= i < |args| ==> Known(args[i])
    requires forall i :: 0 <= i < |args| ==> !HasPrefix(args[i], Prefix(f))
    ensures Get(ParseArgs(o, args).options, f) == Get(o, f)
    decreases |args|
  {
    if args != [] {
      var g := FlagOf(args[0]).flag;
      assert g != f;
      UnnamedSettingKept(ApplyArg(o, args[0]).options, args[1..], f);
    }
  }

  /** The last argument naming a setting decides it: a later flag overrides
      every earlier one. */
  lemma {:induction false} LastArgumentWins(o: Options, args: seq<string>, f: Flag, i: nat)
    requires forall k :: 0 <= k < |args| ==> Known(args[k])
    requires i < |args| && HasPrefix(args[i], Prefix(f))
    requires forall k :: i < k < |args| ==> !HasPrefix(args[k], Prefix(f))
    ensures Get(ParseArgs(o, args).options, f) == Decode(f, args[i][|Prefix(f)|..])
    decreases |args|
  {
    var o' := ApplyArg(o, args[0]).options;
    if i == 0 {
      assert FlagOf(args[0]) == Matched(f) by {
        PrefixesExclusive(args[0], FlagOf(args[0]).flag, f);
      }
      UnnamedSettingKept(o', args[1..], f);
    } else {
      LastArgumentWins(o', args[1..], f, i - 1);
    }
  }

  /** The first unknown argument is the one reported, and the error text
      quotes it. */
  lemma {:induction false} FirstUnknownReported(o: Options, args: seq<string>, i: nat)
    requires i < |args| && !Known(args[i])
    requires forall k :: 0 <= k < i ==> Known(args[k])
    ensures ParseArgs(o, args) == UnknownArgument(args[i])
    ensures ParseArgs(o, args).Message() == "Unknown argument \"" + args[i] + "\""
    decreases i
  {
    if i > 0 {
      FirstUnknownReported(ApplyArg(o, args[0]).options, args[1..], i - 1);
    }
  }

  /** No argument starts with two different flags. */
  lemma PrefixesExclusive(arg: string, f: Flag, g: Flag)
    requires HasPrefix(arg, Prefix(f)) && HasPrefix(arg, Prefix(g))
    ensures f == g
  {
    assert Prefix(f)[2] == arg[2] == Prefix(g)[2];
  }

  /** `--browse=` ignores the case of its value. */
  lemma BrowseIgnoresCase(raw: string)
    ensures BrowseValue(raw) == BrowseValue(ToLower(raw))
  {
    assert ToLower(ToLower(raw)) == ToLower(raw);
  }
}

=== FILE: configuration.dfy ===
/** The server's configuration, read once at start-up and never changed
    afterwards. Values that the configuration file may hold in any JSON
    shape (`port`, `host`, `browse`) are kept as `Val`. */
module Configuration {

  /** The JavaScript values a setting can hold. */
  datatype Val = Undefined | Null | Bool(b: bool) | Num(n: int) | Str(s: string)

  /** The parts of the configuration file the request handler and the
      argument parser read. `allowableExtensions` each begin with `.`;
      `indexFiles` is in priority order; `securityLog` switches on the
      warnings written for refused and missing pages. */
  datatype Config = Config(
    port: Val,
    host: Val,
    browse: Val,
    indexFiles: seq<string>,
    allowableExtensions: seq<string>,
    securityLog: bool
  )
}

=== FILE: handler.dfy ===
/** The whole `app.get('*')` handler: resolve the request path, run the
    render fallback, and turn the result into a reply with its status, body
    and log line. */
module Handler {
  import opened PosixPath
  import opened Configuration
  import opened Resolver
  import opened Render

  /** The console line a request leaves: a warning for refused and missing
      pages when security logging is on, an error for every render failure. */
  datatype Log = Quiet | Warning(text: string) | ErrorLine(text: string)

  /** What the handler does with the response: send a status and body, or
      let an exception escape to the framework. */
  datatype Reply = Send(status: int, body: string, log: Log) | Thrown

  const ForbiddenBody: string := "403 Forbidden"
  const NotFoundBody: string := "404 Not Found"
  const ServerErrorPrefix: string := "500 Internal Server Error\n"

  function SecurityWarning(c: Config, text: string): Log {
    if c.securityLog then Warning(text) else Quiet
  }

  /** The reply for how the fallback ended. */
  function Respond(c: Config, f: Final): (r: Reply)
    ensures r.Send?
    ensures r.status == 200 <==> f.Page?
    ensures r.status == 404 <==> f.NotFound?
    ensures r.status == 500 <==> f.Failure?
    ensures f.Page? ==> r.body == f.html && r.log == Quiet
    ensures f.NotFound? ==> r.body == NotFoundBody && r.log == SecurityWarning(c, "404 status.")
    ensures f.Failure? ==> r.body == ServerErrorPrefix + f.message && r.log == ErrorLine(f.message)
  {
    match f
    case Page(html) => Send(200, html, Quiet)
    case NotFound => Send(404, NotFoundBody, SecurityWarning(c, "404 status."))
    case Failure(m) => Send(500, ServerErrorPrefix + m, ErrorLine(m))
  }

  /** Handles one request for `pathname`, the path as `url.parse` returns it. */
  function Handle(c: Config, pathname: string, render: Renderer): (r: Reply)
    ensures r.Thrown? <==> EndsWithSep(pathname) && c.indexFiles == []
    ensures r.Send? ==> r.status in {200, 403, 404, 500}
    ensures r.Send? && r.status == 403 <==>
      !EndsWithSep(pathname)
      && (!HasExtension(Basename(pathname)) || Extname(pathname) !in c.allowableExtensions)
    ensures r.Send? && r.status == 403 ==> r.body == ForbiddenBody
    ensures r.Send? && (r.status == 403 || r.status == 404) ==>
      (c.securityLog <==> r.log.Warning?) && (!c.securityLog ==> r.log == Quiet)
    ensures r.Send? && r.status == 404 ==>
      && Resolve(c, pathname).Resolved?
      && TryRender(render, Resolve(c, pathname).request).final == NotFound
      && r.body == NotFoundBody
    ensures r.Send? && r.status == 500 ==>
      && Resolve(c, pathname).Resolved?
      && var f := TryRender(render, Resolve(c, pathname).request).final;
      && f.Failure?
      && r.body == ServerErrorPrefix + f.message
      && r.log == ErrorLine(f.message)
    ensures r.Send? && r.status == 200 ==> r.log == Quiet
    ensures r.Send? && r.status == 200 ==>
      Resolve(c, pathname).Resolved? && TryRender(render, Resolve(c, pathname).request).final == Page(r.body)
  {
    match Resolve(c, pathname)
    case NoIndexFile => Thrown
    case Forbidden => Send(403, ForbiddenBody, SecurityWarning(c, "Hacking attempt!"))
    case Resolved(req) => Respond(c, TryRender(render, req).final)
  }

  /** A 200 reply carries exactly what the renderer produced for the last
      template it was given, and every earlier template failed its lookup. */
  lemma PageComesFromRenderer(c: Config, pathname: string, render: Renderer, html: string)
    ensures Handle(c, pathname, render) == Send(200, html, Quiet) ==>
      && Resolve(c, pathname).Resolved?
      && var req := Resolve(c, pathname).request;
         var run := TryRender(render, req);
         var last := run.tried[|run.tried| - 1];
         && render(last.template, Vars(pathname, last.filename)) == Rendered(html)
         && forall i :: 0 <= i < |run.tried| - 1 ==>
              render(run.tried[i].template, Vars(pathname, run.tried[i].filename)) == LookupFailed
  {
    if Handle(c, pathname, render) == Send(200, html, Quiet) {
      PageEndsFallback(c, pathname, render, html);
      var req := Resolve(c, pathname).request;
      var run := TryRender(render, req);
      PageIsLastOutcome(render, req);
      var last := run.tried[|run.tried| - 1];
      assert render(last.template, Vars(pathname, last.filename)) == Rendered(html);
      forall i | 0 <= i < |run.tried| - 1
        ensures render(run.tried[i].template, Vars(pathname, run.tried[i].filename)) == LookupFailed
      {
      }
    }
  }

  /** A 200 reply is the page that ended the fallback for the resolved
      request. */
  lemma PageEndsFallback(c: Config, pathname: string, render: Renderer, html: string)
    requires Handle(c, pathname, render) == Send(200, html, Quiet)
    ensures Resolve(c, pathname).Resolved?
    ensures Resolve(c, pathname).request.pathname == pathname
    ensures TryRender(render, Resolve(c, pathname).request).final == Page(html)
  {
    var r := Handle(c, pathname, render);
    assert r.Send? && r.status == 200;
  }

  /** Index list ["index.html", "home.html"] and any renderer for which
      "index.html" misses and "home.html" renders: two render calls, in that
      order, and the page from the second one. */
  lemma SecondIndexFileServes(render: Renderer, c: Config, pathname: string, html: string)
    requires EndsWithSep(pathname) && c.indexFiles == ["index.html", "home.html"]
    requires render(IndexTemplate(pathname, "index.html"), Vars(pathname, "index.html")) == LookupFailed
    requires render(IndexTemplate(pathname, "home.html"), Vars(pathname, "home.html")) == Rendered(html)
    ensures var run := TryRender(render, Resolve(c, pathname).request);
      && run.final == Page(html)
      && run.tried == [Attempt(IndexTemplate(pathname, "index.html"), "index.html"),
                       Attempt(IndexTemplate(pathname, "home.html"), "home.html")]
      && Handle(c, pathname, render) == Send(200, html, Quiet)
  {
    var req := Resolve(c, pathname).request;
    DirectoryAttempts(c, pathname);
    IndexAttemptAt(pathname, c.indexFiles, 1);
    var next := Advance(req);
    assert next.curFilename == "home.html" && next.pending == [];
    assert TryRender(render, next) == Run(Page(html), [Attempt(next.template, "home.html")]);
  }

  /** Fallback for a directory request with index list `files`: the index
      files are tried in the list's order, each at most once, so there are
      at most `|files|` render calls; when every lookup fails the answer is
      "not found" after exactly `|files|` calls; and every template handed
      to the renderer is relative. */
  lemma DirectoryFallback(render: Renderer, c: Config, pathname: string)
    requires EndsWithSep(pathname) && c.indexFiles != []
    ensures Resolve(c, pathname).Resolved?
    ensures var run := TryRender(render, Resolve(c, pathname).request);
      && |run.tried| <= |c.indexFiles|
      && run.tried == IndexAttempts(pathname, c.indexFiles)[..|run.tried|]
      && AllRelative(run.tried)
    ensures (forall i :: 0 <= i < |c.indexFiles| ==>
               render(IndexTemplate(pathname, c.indexFiles[i]), Vars(pathname, c.indexFiles[i])) == LookupFailed)
        ==> TryRender(render, Resolve(c, pathname).request) == Run(NotFound, IndexAttempts(pathname, c.indexFiles))
  {
    var files := c.indexFiles;
    var req := Resolve(c, pathname).request;
    DirectoryAttempts(c, pathname);
    var cands := Candidates(req);
    assert cands == IndexAttempts(pathname, files);
    TryRenderFollowsCandidates(render, req);
    if forall i :: 0 <= i < |files| ==>
         render(IndexTemplate(pathname, files[i]), Vars(pathname, files[i])) == LookupFailed {
      forall i | 0 <= i < |cands|
        ensures Outcome(render, pathname, cands[i]) == LookupFailed
      {
        IndexAttemptAt(pathname, files, i);
      }
      AllLookupsFail(render, req);
    }
  }

  /** A render error on the first index file ends the request with 500 and
      no second render call. */
  lemma RenderErrorStopsDirectoryRequest(render: Renderer, c: Config, pathname: string, message: string)
    requires EndsWithSep(pathname) && c.indexFiles != []
    requires var first := c.indexFiles[0];
      render(IndexTemplate(pathname, first), Vars(pathname, first)) == RenderFailed(message)
    ensures var run := TryRender(render, Resolve(c, pathname).request);
      && |run.tried| == 1
      && Handle(c, pathname, render) == Send(500, ServerErrorPrefix + message, ErrorLine(message))
  {
  }

  /** A directory request whose every index file fails the template lookup
      ends with the 404 page, after one render call per index file. */
  lemma DirectoryNotFound(render: Renderer, c: Config, pathname: string)
    requires EndsWithSep(pathname) && c.indexFiles != []
    requires forall i :: 0 <= i < |c.indexFiles| ==>
      render(IndexTemplate(pathname, c.indexFiles[i]), Vars(pathname, c.indexFiles[i])) == LookupFailed
    ensures |TryRender(render, Resolve(c, pathname).request).tried| == |c.indexFiles|
    ensures Handle(c, pathname, render) == Send(404, NotFoundBody, SecurityWarning(c, "404 status."))
  {
    DirectoryFallback(render, c, pathname);
  }

  /** `GET /` with index list ["index.html"] and any renderer for which
      template `index.html` renders. */
  lemma RootServesIndex(render: Renderer, c: Config, html: string)
    requires c.indexFiles == ["index.html"]
    requires render("index.html", Vars("/", "index.html")) == Rendered(html)
    ensures IndexTemplate("/", "index.html") == "index.html"
    ensures Handle(c, "/", render) == Send(200, html, Quiet)
  {
    IndexTemplateOfRoot();
  }

  lemma IndexTemplateOfRoot()
    ensures IndexTemplate("/", "index.html") == "index.html"
  {
    JoinedRootIndex();
    NormalizeRootIndex();
  }

  lemma JoinedRootIndex()
    ensures JoinWith(NonEmpty(["/", "index.html"])) == "//index.html"
  {
    assert NonEmpty(["/", "index.html"]) == ["/", "index.html"];
  }

  lemma NamesOfRootIndex()
    ensures Names("//index.html") == ["index.html"]
  {
    IndexHtmlIsName();
    NamesUnderDoubleSep("index.html");
    assert "//index.html" == [Sep] + ([Sep] + "index.html");
  }

  lemma NamesUnderDoubleSep(n: string)
    requires IsName(n)
    ensures Names([Sep] + ([Sep] + n)) == [n]
  {
    SplitOfName(n);
    NonEmptyOfNames([n]);
    NamesAfterSep(n);
    NamesAfterSep([Sep] + n);
  }

  lemma NormalizeRootIndex()
    ensures Normalize("//index.html") == "/index.html"
  {
    NamesOfRootIndex();
    var p := "//index.html";
    assert p[0] == Sep && p[|p| - 1] != Sep;
    var kept := Collapse(Names(p), false);
    assert kept == ["index.html"];
    assert JoinWith(kept) == "index.html";
  }

  /** Kept apart so that the literal is checked once, outside the larger
      proofs that use it. */
  lemma IndexHtmlIsName()
    ensures IsName("index.html")
  {
  }

  /** A file directly under the root has its name as base name. */
  lemma BasenameOfRootFile(name: string)
    requires IsName(name)
    ensures Basename([Sep] + name) == name
  {
    NamesAfterSep(name);
    SplitOfName(name);
    NonEmptyOfNames([name]);
  }

  /** `GET /secret`: no extension, refused with 403. */
  lemma ExtensionlessPathRefused(c: Config, pathname: string)
    requires pathname == "/secret"
    ensures Handle(c, pathname, (t: string, v: Vars) => LookupFailed)
         == Send(403, ForbiddenBody, SecurityWarning(c, "Hacking attempt!"))
  {
    assert IsName("secret");
    BasenameOfRootFile("secret");
    assert pathname == [Sep] + "secret";
    assert !HasExtension("secret");
    RefusedReply(c, pathname, (t: string, v: Vars) => LookupFailed);
  }

  /** A file path whose extension is missing or not allowed gets the 403
      reply, with a warning when security logging is on. */
  lemma RefusedReply(c: Config, pathname: string, render: Renderer)
    requires !EndsWithSep(pathname)
    requires !HasExtension(Basename(pathname)) || Extname(pathname) !in c.allowableExtensions
    ensures Handle(c, pathname, render) == Send(403, ForbiddenBody, SecurityWarning(c, "Hacking attempt!"))
  {
  }

  /** `GET /style.css` when only ".html" is allowed: refused with 403. */
  lemma DisallowedExtensionRefused(c: Config, pathname: string)
    requires pathname == "/style.css" && c.allowableExtensions == [".html"]
    ensures Handle(c, pathname, (t: string, v: Vars) => LookupFailed).status == 403
  {
    ExtnameOfStyleCss(pathname);
    RefusedReply(c, pathname, (t: string, v: Vars) => LookupFailed);
  }

  /** A file path with an allowed extension whose template lookup fails
      gets the 404 reply, with a warning when security logging is on. */
  lemma MissingTemplateReply(c: Config, pathname: string, render: Renderer)
    requires !EndsWithSep(pathname) && Extname(pathname) != ""
    requires Extname(pathname) in c.allowableExtensions
    requires render(FileTemplate(pathname), Vars(pathname, Basename(pathname))) == LookupFailed
    ensures Handle(c, pathname, render) == Send(404, NotFoundBody, SecurityWarning(c, "404 status."))
  {
  }

  /** `GET /missing.html` with ".html" allowed and no such template: 404. */
  lemma MissingFileNotFound(c: Config, pathname: string)
    requires pathname == "/missing.html" && ".html" in c.allowableExtensions
    ensures Handle(c, pathname, (t: string, v: Vars) => LookupFailed).status == 404
  {
    ExtnameOfMissingHtml(pathname);
    MissingTemplateReply(c, pathname, (t: string, v: Vars) => LookupFailed);
  }

  /** The extension of a file `stem.suffix` directly under the root. */
  lemma ExtnameOfRootFile(stem: string, suffix: string)
    requires stem != "" && suffix != ""
    requires Sep !in stem && Sep !in suffix && '.' !in suffix
    ensures Extname([Sep] + (stem + "." + suffix)) == "." + suffix
  {
    var name := stem + "." + suffix;
    assert Sep !in name;
    BasenameOfRootFile(name);
    var d := LastDot(name);
    assert name[|stem|] == '.';
    assert forall j :: |stem| < j < |name| ==> name[j] == suffix[j - |stem| - 1];
    assert d == |stem|;
    assert name[d..] == "." + suffix;
  }

  /** The name in `/style.css` is `style` `.` `css`, stated through slices of
      `p`: handing the literals themselves to `ExtnameOfRootFile` makes the
      solver unfold `Extname` on a literal string, which costs several times
      the resource budget, while these facts about `p` stay cheap. */
  lemma StyleCssParts(p: string)
    requires p == "/style.css"
    ensures p == [Sep] + (p[1..6] + "." + p[7..])
    ensures p[1..6] != "" && Sep !in p[1..6]
    ensures p[7..] != "" && Sep !in p[7..] && '.' !in p[7..] && "." + p[7..] == ".css"
  {
  }

  lemma ExtnameOfStyleCss(p: string)
    requires p == "/style.css"
    ensures Extname(p) == ".css"
  {
    StyleCssParts(p);
    ExtnameOfRootFile(p[1..6], p[7..]);
  }

  /** The name in `/missing.html` is `missing` `.` `html`, stated through
      slices of `p` for the same reason as `StyleCssParts`. */
  lemma MissingHtmlParts(p: string)
    requires p == "/missing.html"
    ensures p == [Sep] + (p[1..8] + "." + p[9..])
    ensures p[1..8] != "" && Sep !in p[1..8]
    ensures p[9..] != "" && Sep !in p[9..] && '.' !in p[9..] && "." + p[9..] == ".html"
  {
  }

  lemma ExtnameOfMissingHtml(p: string)
    requires p == "/missing.html"
    ensures Extname(p) == ".html"
  {
    MissingHtmlParts(p);
    ExtnameOfRootFile(p[1..8], p[9..]);
  }
}

=== FILE: posix_path.dfy ===
/** The POSIX flavour of Node's `path` helpers that the request handler
    calls (`path.join`, `path.basename`, `path.extname`), over
    `/`-separated strings. Names are the pieces between separators; `.` and
    `..` names are resolved by `Normalize` the way `path.normalize` does.
    The semantics are those of Node 0.10 and later. */
module PosixPath {

  const Sep: char := '/'

  /** A non-empty piece of a path that holds no separator. */
  predicate IsName(s: string) {
    s != "" && Sep !in s
  }

  predicate AllNames(names: seq<string>) {
    forall k :: 0 <= k < |names| ==> IsName(names[k])
  }

  predicate StartsWithSep(s: string) {
    |s| > 0 && s[0] == Sep
  }

  predicate EndsWithSep(s: string) {
    |s| > 0 && s[|s| - 1] == Sep
  }

  predicate IsSuffix(suffix: string, s: string) {
    |suffix| <= |s| && s[|s| - |suffix|..] == suffix
  }

  /** `s.split('/')`: every piece between separators, empty pieces
      included, built one character at a time from the end. */
  function Split(s: string): (parts: seq<string>)
    ensures |parts| >= 1
  {
    if s == [] then [""]
    else
      var rest := Split(s[1..]);
      if s[0] == Sep then [""] + rest
      else [[s[0]] + rest[0]] + rest[1..]
  }

  /** `parts.join('/')`. */
  function JoinWith(parts: seq<string>): string {
    if |parts| == 0 then ""
    else if |parts| == 1 then parts[0]
    else parts[0] + [Sep] + JoinWith(parts[1..])
  }

  /** The joined string starts with the first piece's first character. */
  lemma JoinWithStart(parts: seq<string>)
    requires |parts| > 0 && parts[0] != ""
    ensures JoinWith(parts) != "" && JoinWith(parts)[0] == parts[0][0]
  {
  }

  /** The pieces of `parts` that are not empty, in order. */
  function NonEmpty(parts: seq<string>): (r: seq<string>)
    ensures |r| <= |parts|
  {
    if |parts| == 0 then []
    else (if parts[0] == "" then [] else [parts[0]]) + NonEmpty(parts[1..])
  }

  /** The names of a path: what is left of `Split` once empty pieces (from
      leading, trailing or repeated separators) are dropped. */
  function Names(s: string): seq<string> {
    NonEmpty(Split(s))
  }

  /** Every name of a path is non-empty and holds no separator. */
  lemma NamesAreNames(s: string)
    ensures AllNames(Names(s))
  {
    SplitPiecesHaveNoSep(s);
    NonEmptyKeepsPieces(Split(s));
  }

  lemma {:induction false} SplitPiecesHaveNoSep(s: string)
    ensures forall k :: 0 <= k < |Split(s)| ==> Sep !in Split(s)[k]
  {
    if s != [] {
      SplitPiecesHaveNoSep(s[1..]);
      var rest := Split(s[1..]);
      if s[0] != Sep {
        assert Sep !in rest[0];
        assert Sep !in [s[0]] + rest[0];
      }
    }
  }

  /** `NonEmpty` keeps the non-empty pieces with no separator. */
  lemma {:induction false} NonEmptyKeepsPieces(parts: seq<string>)
    requires forall k :: 0 <= k < |parts| ==> Sep !in parts[k]
    ensures AllNames(NonEmpty(parts))
  {
    if |parts| > 0 {
      NonEmptyKeepsPieces(parts[1..]);
    }
  }

  /** One step of `.`/`..` resolution over the names kept so far. */
  function Visit(kept: seq<string>, name: string, allowAboveRoot: bool): seq<string>
  {
    if name == "." then kept
    else if name == ".." then
      if |kept| > 0 && kept[|kept| - 1] != ".." then kept[..|kept| - 1]
      else if allowAboveRoot then kept + [".."]
      else kept
    else kept + [name]
  }

  /** Resolves `.` and `..` names from left to right: `.` is dropped, `..`
      removes the name before it, and a `..` with nothing to remove is kept
      only when the path is relative (`allowAboveRoot`). */
  function Collapse(names: seq<string>, allowAboveRoot: bool): seq<string>
    decreases |names|
  {
    if |names| == 0 then []
    else Visit(Collapse(names[..|names| - 1], allowAboveRoot), names[|names| - 1], allowAboveRoot)
  }

  /** Resolution keeps only names, drops every `.`, and for an absolute
      path drops every `..` as well. */
  lemma {:induction false} CollapseKeepsNames(names: seq<string>, allowAboveRoot: bool)
    requires AllNames(names)
    ensures var r := Collapse(names, allowAboveRoot);
      && AllNames(r)
      && (forall k :: 0 <= k < |r| ==> r[k] != ".")
      && (!allowAboveRoot ==> forall k :: 0 <= k < |r| ==> r[k] != "..")
    decreases |names|
  {
    if |names| > 0 {
      CollapseKeepsNames(names[..|names| - 1], allowAboveRoot);
    }
  }

  /** `path.normalize`: repeated separators collapse, `.` and `..` names are
      resolved, a leading and a trailing separator are kept, and an empty
      result becomes `/`, `./` or `.`. */
  function Normalize(p: string): (r: string)
    ensures r != ""
    ensures StartsWithSep(r) <==> StartsWithSep(p)
    ensures StartsWithSep(r) ==> !StartsWithSep(r[1..])
  {
    if p == "" then "."
    else
      var absolute := p[0] == Sep;
      var trailing := p[|p| - 1] == Sep;
      var kept := Collapse(Names(p), !absolute);
      var body := JoinWith(kept);
      if kept == [] then
        if absolute then "/" else if trailing then "./" else "."
      else
        NamesAreNames(p);
        CollapseKeepsNames(Names(p), !absolute);
        JoinWithStart(kept);
        (if absolute then "/" else "") + body + (if trailing then "/" else "")
  }

  /** `path.join(args...)`: the non-empty arguments joined by `/`, then
      normalised; `.` when every argument is empty. */
  function Join(args: seq<string>): (r: string)
    ensures r != ""
    ensures StartsWithSep(r) ==> !StartsWithSep(r[1..])
  {
    var joined := JoinWith(NonEmpty(args));
    if joined == "" then "." else Normalize(joined)
  }

  /** `path.basename(p)`: the last name of `p`, trailing separators ignored. */
  function Basename(p: string): (b: string)
    ensures b == "" || IsName(b)
  {
    NamesAreNames(p);
    var names := Names(p);
    if names == [] then "" else names[|names| - 1]
  }

  /** Position of the last `.` in `s`, or -1. */
  function LastDot(s: string): (d: int)
    ensures -1 <= d < |s|
    ensures d >= 0 ==> s[d] == '.'
    ensures forall j :: d < j < |s| ==> s[j] != '.'
  {
    if |s| == 0 then -1
    else if s[|s| - 1] == '.' then |s| - 1
    else LastDot(s[..|s| - 1])
  }

  /** True when a name carries an extension in Node's sense: a `.` after its
      first character, and the name is not `..`. */
  predicate HasExtension(b: string) {
    b != ".." && exists d :: 0 < d < |b| && b[d] == '.'
  }

  /** `path.extname(p)`: from the last `.` of the base name to its end; empty
      when there is no such `.`, when it is the first character (`.bashrc`)
      or when the base name is `..`. */
  function Extname(p: string): (e: string)
    ensures e != "" <==> HasExtension(Basename(p))
    ensures e != "" ==> e[0] == '.' && '.' !in e[1..]
    ensures e != "" ==> IsSuffix(e, Basename(p)) && |e| < |Basename(p)|
  {
    var b := Basename(p);
    var d := LastDot(b);
    if b == ".." || d <= 0 then "" else b[d..]
  }

  /** Drops one leading separator, as the handler does with
      `tpl.charAt(0) === '/'` and `tpl.substr(1)`. */
  function StripLeadingSep(t: string): string {
    if StartsWithSep(t) then t[1..] else t
  }

  // ---------------------------------------------------------------------
  // Split and JoinWith are inverse to each other.

  /** A string without separators is a single piece. */
  lemma {:induction false} SplitOfName(s: string)
    requires Sep !in s
    ensures Split(s) == [s]
  {
    if s != [] {
      assert Sep !in s[1..];
      SplitOfName(s[1..]);
      assert [s[0]] + s[1..] == s;
    }
  }

  lemma {:induction false} SplitConcat(a: string, b: string)
    ensures Split(a + [Sep] + b) == Split(a) + Split(b)
  {
    var s := a + [Sep] + b;
    if a == [] {
      assert s == [Sep] + b;
      assert s[1..] == b;
    } else {
      assert s[0] == a[0];
      assert s[1..] == a[1..] + [Sep] + b;
      SplitConcat(a[1..], b);
    }
  }

  /** Joining names by `/` and splitting again gives the names back. */
  lemma {:induction false} SplitJoinWith(parts: seq<string>)
    requires |parts| > 0
    requires forall k :: 0 <= k < |parts| ==> Sep !in parts[k]
    ensures Split(JoinWith(parts)) == parts
  {
    SplitOfName(parts[0]);
    if |parts| > 1 {
      SplitConcat(parts[0], JoinWith(parts[1..]));
      SplitJoinWith(parts[1..]);
      assert parts == [parts[0]] + parts[1..];
    }
  }

  lemma JoinWithCons(head: string, rest: seq<string>)
    requires |rest| > 0
    ensures JoinWith([head] + rest) == head + [Sep] + JoinWith(rest)
  {
    assert ([head] + rest)[1..] == rest;
  }

  /** One step of `JoinWith`, and the associativity it needs, given as
      separate lemmas: left to the solver inside `JoinWithPrepend` they make
      that proof many times dearer. */
  lemma JoinWithSingle(x: string)
    ensures JoinWith([x]) == x
  {
  }

  lemma ConcatAssoc(c: char, head: string, t: string)
    ensures ([c] + head) + [Sep] + t == [c] + (head + [Sep] + t)
  {
  }

  /** Putting a character in front of the first piece puts it in front of
      the joined string. */
  lemma JoinWithPrepend(c: char, parts: seq<string>)
    requires |parts| > 0
    ensures JoinWith([[c] + parts[0]] + parts[1..]) == [c] + JoinWith(parts)
  {
    var head, rest := parts[0], parts[1..];
    if |parts| == 1 {
      JoinWithSingle([c] + head);
      JoinWithSingle(head);
      assert parts == [head];
      assert rest == [];
      assert [[c] + head] + rest == [[c] + head];
    } else {
      var t := JoinWith(rest);
      JoinWithCons([c] + head, rest);
      JoinWithCons(head, rest);
      assert parts == [head] + rest;
      ConcatAssoc(c, head, t);
    }
  }

  /** Splitting a string and joining the pieces by `/` gives the string back. */
  lemma {:induction false} JoinWithSplit(s: string)
    ensures JoinWith(Split(s)) == s
  {
    if s != [] {
      var rest := Split(s[1..]);
      JoinWithSplit(s[1..]);
      if s[0] == Sep {
        JoinWithCons("", rest);
      } else {
        JoinWithPrepend(s[0], rest);
      }
      assert [s[0]] + s[1..] == s;
    }
  }

  lemma {:induction false} NonEmptyConcat(a: seq<string>, b: seq<string>)
    ensures NonEmpty(a + b) == NonEmpty(a) + NonEmpty(b)
  {
    if |a| > 0 {
      assert (a + b)[1..] == a[1..] + b;
      NonEmptyConcat(a[1..], b);
    } else {
      assert a + b == b;
    }
  }

  lemma {:induction false} NonEmptyOfNames(names: seq<string>)
    requires AllNames(names)
    ensures NonEmpty(names) == names
  {
    if |names| > 0 {
      NonEmptyOfNames(names[1..]);
    }
  }

  /** A leading separator adds no name. */
  lemma NamesAfterSep(s: string)
    ensures Names([Sep] + s) == Names(s)
  {
    SplitConcat("", s);
    assert "" + [Sep] + s == [Sep] + s;
    NonEmptyConcat([""], Split(s));
  }

  /** A trailing separator adds no name. */
  lemma NamesBeforeSep(s: string)
    ensures Names(s + [Sep]) == Names(s)
  {
    SplitConcat(s, "");
    assert s + [Sep] + "" == s + [Sep];
    NonEmptyConcat(Split(s), [""]);
  }

  /** The names of a path made of names joined by `/` are those names. */
  lemma NamesOfJoinWith(names: seq<string>)
    requires AllNames(names)
    ensures Names(JoinWith(names)) == names
  {
    if |names| == 0 {
      assert Split("") == [""];
    } else {
      SplitJoinWith(names);
      NonEmptyOfNames(names);
    }
  }

  /** Normalising an absolute path leaves exactly the names that `.`/`..`
      resolution keeps, none of which climbs above the root. */
  lemma NamesOfNormalizeAbsolute(p: string)
    requires StartsWithSep(p)
    ensures Names(Normalize(p)) == Collapse(Names(p), false)
  {
    var kept := Collapse(Names(p), false);
    var body := JoinWith(kept);
    NamesAreNames(p);
    CollapseKeepsNames(Names(p), false);
    if kept == [] {
      assert Normalize(p) == "/";
      NamesAfterSep("");
      assert [Sep] + "" == "/";
      assert Split("") == [""];
    } else {
      NamesOfJoinWith(kept);
      NamesAfterSep(body);
      if EndsWithSep(p) {
        assert Normalize(p) == [Sep] + (body + [Sep]);
        NamesBeforeSep(body);
      } else {
        assert Normalize(p) == [Sep] + body;
      }
    }
  }

  /** Dropping a leading separator does not change the names of a path. */
  lemma NamesOfStripLeadingSep(t: string)
    ensures Names(StripLeadingSep(t)) == Names(t)
  {
    if StartsWithSep(t) {
      NamesAfterSep(t[1..]);
      assert t == [Sep] + t[1..];
    }
  }

  /** The names of `a/b` are the names of `a` followed by those of `b`. */
  lemma NamesAcrossSep(a: string, b: string)
    ensures Names(a + [Sep] + b) == Names(a) + Names(b)
  {
    SplitConcat(a, b);
    NonEmptyConcat(Split(a), Split(b));
  }

  /** `path.join(p)` of an absolute `p`: its names with `.` and `..`
      resolved, none climbing above the root. */
  lemma NamesOfJoinSingle(p: string)
    requires StartsWithSep(p)
    ensures Names(Join([p])) == Collapse(Names(p), false)
  {
    assert NonEmpty([p]) == [p];
    JoinWithSingle(p);
    NamesOfNormalizeAbsolute(p);
  }

  /** `path.join(p, f)` onto an absolute `p`: the names of `p` followed by
      those of `f`, with `.` and `..` resolved and none climbing above the
      root. An empty `f` is skipped by the join and has no names. */
  lemma NamesOfJoinAbsolute(p: string, f: string)
    requires StartsWithSep(p)
    ensures Names(Join([p, f])) == Collapse(Names(p) + Names(f), false)
  {
    if f == "" {
      assert Split(f) == [""];
      assert Names(p) + Names(f) == Names(p);
      assert NonEmpty([p, f]) == [p];
      NamesOfJoinSingle(p);
      return;
    }
    var joined := p + [Sep] + f;
    assert [p, f][1..] == [f];
    assert NonEmpty([p, f]) == [p, f];
    JoinWithCons(p, [f]);
    JoinWithSingle(f);
    assert [p, f] == [p] + [f];
    assert JoinWith(NonEmpty([p, f])) == joined;
    assert StartsWithSep(joined);
    NamesOfNormalizeAbsolute(joined);
    NamesAcrossSep(p, f);
  }

  /** Joining onto an absolute path and stripping the leading separator never
      yields a `..` or `.` name: the result cannot leave the served tree. */
  lemma JoinAbsoluteStaysInside(args: seq<string>)
    requires |args| > 0 && StartsWithSep(args[0])
    ensures var names := Names(StripLeadingSep(Join(args)));
      forall k :: 0 <= k < |names| ==> names[k] != ".." && names[k] != "."
  {
    assert args == [args[0]] + args[1..];
    NonEmptyConcat([args[0]], args[1..]);
    var joined := JoinWith(NonEmpty(args));
    assert StartsWithSep(joined);
    NamesOfStripLeadingSep(Join(args));
    NamesOfNormalizeAbsolute(joined);
    NamesAreNames(joined);
    CollapseKeepsNames(Names(joined), false);
  }

  // ---------------------------------------------------------------------
  // Base name and extension.

  /** The last piece ends the joined string, right after a separator or
      as the whole string. */
  lemma {:induction false} LastPieceIsSuffix(parts: seq<string>)
    requires |parts| > 0
    ensures var s, last := JoinWith(parts), parts[|parts| - 1];
      IsSuffix(last, s) && (|last| == |s| || s[|s| - |last| - 1] == Sep)
  {
    if |parts| > 1 {
      var rest := parts[1..];
      LastPieceIsSuffix(rest);
      JoinWithCons(parts[0], rest);
      assert parts == [parts[0]] + rest;
      var s, t, last := JoinWith(parts), JoinWith(rest), rest[|rest| - 1];
      assert s == parts[0] + [Sep] + t;
      assert s[|s| - |t|..] == t;
      assert s[|s| - |last|..] == t[|t| - |last|..];
      if |last| == |t| {
        assert s[|s| - |last| - 1] == Sep;
      } else {
        assert s[|s| - |last| - 1] == t[|t| - |last| - 1];
      }
    }
  }

  /** For a path that does not end in a separator, the base name is its
      last piece: `p` is a directory prefix (empty or ending in `/`)
      followed by `Basename(p)`. */
  lemma BasenameEndsPath(p: string)
    requires p != "" && !EndsWithSep(p)
    ensures var b := Basename(p);
      b != "" && IsSuffix(b, p) && (|b| == |p| || p[|p| - |b| - 1] == Sep)
  {
    var parts := Split(p);
    var last := parts[|parts| - 1];
    JoinWithSplit(p);
    LastPieceIsSuffix(parts);
    assert last != "";
    assert parts == parts[..|parts| - 1] + [last];
    NonEmptyConcat(parts[..|parts| - 1], [last]);
    assert NonEmpty([last]) == [last];
    var names := NonEmpty(parts);
    assert names == NonEmpty(parts[..|parts| - 1]) + [last];
    assert Names(p) == names;
    assert Basename(p) == last;
  }
}

=== FILE: render.dfy ===
/** The `tryRender` half of the request handler: render the chosen template
    and, while a directory request's template is missing, move on to the
    next index file. The template engine is an oracle `Renderer` that says
    what one render call produced. */
module Render {
  import opened PosixPath
  import opened Configuration
  import opened Resolver

  /** What one render call produces. `LookupFailed` is an error whose text
      matches "failed to lookup view" (ignoring case); `RenderFailed` is any
      other error, carrying the error's `toString()` text. */
  datatype RenderOutcome = Rendered(html: string) | LookupFailed | RenderFailed(message: string)

  /** The request-dependent variables handed to the template along with the
      parsed location, which stays fixed for the whole request. */
  datatype Vars = Vars(pathname: string, curFilename: string)

  type Renderer = (string, Vars) -> RenderOutcome

  /** The template helper `curNavPos(withIndexPage)`: the request path with
      the current template file name cut off its end when it ends there. The
      argument is normalised in the helper but never used. */
  function CurNavPos(v: Vars, withIndexPage: Val): (r: string)
    ensures IsSuffix(v.curFilename, v.pathname) ==> r + v.curFilename == v.pathname
    ensures !IsSuffix(v.curFilename, v.pathname) ==> r == v.pathname
  {
    var p := v.pathname;
    if IsSuffix(v.curFilename, p) then p[..|p| - |v.curFilename|] else p
  }

  /** How the request ends. */
  datatype Final = Page(html: string) | NotFound | Failure(message: string)

  /** The render calls made, in order, and how the request ended. */
  datatype Run = Run(final: Final, tried: seq<Attempt>)

  function Outcome(render: Renderer, pathname: string, a: Attempt): RenderOutcome {
    render(a.template, Vars(pathname, a.filename))
  }

  /** The request end that a render outcome stands for when no retry follows. */
  function Classify(o: RenderOutcome): Final {
    match o
    case Rendered(html) => Page(html)
    case LookupFailed => NotFound
    case RenderFailed(m) => Failure(m)
  }

  /** Every render call the request could make, in the order it would make
      them: the first template, then (for a directory request only) each
      remaining index file. */
  function Candidates(req: Request): (cands: seq<Attempt>)
    ensures |cands| == 1 + (if req.isDirectory then |req.pending| else 0)
  {
    [Attempt(req.template, req.curFilename)] + (if req.isDirectory then req.pending else [])
  }

  /** The request after taking the next index file off the pending list. */
  function Advance(req: Request): (next: Request)
    requires |req.pending| > 0
    ensures next.pathname == req.pathname && next.isDirectory == req.isDirectory
    ensures Attempt(next.template, next.curFilename) == req.pending[0]
    ensures next.pending == req.pending[1..]
  {
    var file := req.pending[0];
    req.(template := file.template, curFilename := file.filename, pending := req.pending[1..])
  }

  /** The first template and every pending one are relative. */
  predicate Relative(req: Request) {
    !StartsWithSep(req.template) && AllRelative(req.pending)
  }

  lemma CandidatesOfAdvance(req: Request)
    requires req.isDirectory && |req.pending| > 0
    ensures Candidates(req) == [Attempt(req.template, req.curFilename)] + Candidates(Advance(req))
  {
  }

  /** `tryRender`: render the current template; after a failed lookup on a
      directory request with index files left, take the next one and retry;
      otherwise the outcome ends the request. */
  function TryRender(render: Renderer, req: Request): (run: Run)
    ensures 1 <= |run.tried| <= 1 + (if req.isDirectory then |req.pending| else 0)
    ensures run.tried[0] == Attempt(req.template, req.curFilename)
    ensures Relative(req) ==> AllRelative(run.tried)
    decreases |req.pending|
  {
    var first := Attempt(req.template, req.curFilename);
    match Outcome(render, req.pathname, first)
    case Rendered(html) => Run(Page(html), [first])
    case RenderFailed(m) => Run(Failure(m), [first])
    case LookupFailed =>
      if req.isDirectory && |req.pending| > 0 then
        var rest := TryRender(render, Advance(req));
        Run(rest.final, [first] + rest.tried)
      else
        Run(NotFound, [first])
  }

  /** `run` is what trying `cands` in order gives: it makes the first `n`
      of them, every one before the last failed its lookup, the last one's
      outcome decides the end, and a failed lookup ends the request only
      once the candidates are used up. */
  predicate Explains(render: Renderer, pathname: string, cands: seq<Attempt>, run: Run) {
    var n := |run.tried|;
    && 1 <= n <= |cands|
    && run.tried == cands[..n]
    && (forall i :: 0 <= i < n - 1 ==> Outcome(render, pathname, cands[i]) == LookupFailed)
    && run.final == Classify(Outcome(render, pathname, cands[n - 1]))
    && (Outcome(render, pathname, cands[n - 1]) == LookupFailed ==> n == |cands|)
  }

  lemma ExplainsFirst(render: Renderer, pathname: string, first: Attempt, rest: seq<Attempt>)
    requires Outcome(render, pathname, first) != LookupFailed || rest == []
    ensures Explains(render, pathname, [first] + rest,
                     Run(Classify(Outcome(render, pathname, first)), [first]))
  {
    assert ([first] + rest)[..1] == [first];
  }

  lemma ExplainsRetry(render: Renderer, pathname: string, first: Attempt, rest: seq<Attempt>, run: Run)
    requires Outcome(render, pathname, first) == LookupFailed
    requires Explains(render, pathname, rest, run)
    ensures Explains(render, pathname, [first] + rest, Run(run.final, [first] + run.tried))
  {
    var cands := [first] + rest;
    var n := |run.tried|;
    assert cands[..n + 1] == [first] + rest[..n];
    assert cands[n] == rest[n - 1];
    forall i | 0 <= i < n
      ensures Outcome(render, pathname, cands[i]) == LookupFailed
    {
      if i > 0 {
        assert cands[i] == rest[i - 1];
      }
    }
  }

  /** Every run is the one its candidates explain. */
  lemma {:induction false} TryRenderFollowsCandidates(render: Renderer, req: Request)
    ensures Explains(render, req.pathname, Candidates(req), TryRender(render, req))
    decreases |req.pending|
  {
    var first := Attempt(req.template, req.curFilename);
    if Outcome(render, req.pathname, first) == LookupFailed && req.isDirectory && |req.pending| > 0 {
      var req' := Advance(req);
      TryRenderFollowsCandidates(render, req');
      CandidatesOfAdvance(req);
      ExplainsRetry(render, req.pathname, first, Candidates(req'), TryRender(render, req'));
    } else {
      var rest := if req.isDirectory then req.pending else [];
      assert Candidates(req) == [first] + rest;
      ExplainsFirst(render, req.pathname, first, rest);
    }
  }

  /** A page is what the last render call produced, and every call before
      it failed its lookup. */
  lemma PageIsLastOutcome(render: Renderer, req: Request)
    requires TryRender(render, req).final.Page?
    ensures var run := TryRender(render, req);
      var last := run.tried[|run.tried| - 1];
      && render(last.template, Vars(req.pathname, last.filename)) == Rendered(run.final.html)
      && forall i :: 0 <= i < |run.tried| - 1 ==>
           render(run.tried[i].template, Vars(req.pathname, run.tried[i].filename)) == LookupFailed
  {
    var run := TryRender(render, req);
    TryRenderFollowsCandidates(render, req);
    var cands := Candidates(req);
    var n := |run.tried|;
    assert run.tried[n - 1] == cands[n - 1];
    forall i | 0 <= i < n - 1
      ensures Outcome(render, req.pathname, run.tried[i]) == LookupFailed
    {
      assert run.tried[i] == cands[i];
    }
  }

  /** When every candidate's lookup fails, every candidate is tried, in
      order, and the answer is "not found". */
  lemma AllLookupsFail(render: Renderer, req: Request)
    requires forall i :: 0 <= i < |Candidates(req)| ==> Outcome(render, req.pathname, Candidates(req)[i]) == LookupFailed
    ensures TryRender(render, req) == Run(NotFound, Candidates(req))
  {
    TryRenderFollowsCandidates(render, req);
    var cands := Candidates(req);
    var run := TryRender(render, req);
    assert Outcome(render, req.pathname, cands[|run.tried| - 1]) == LookupFailed;
    assert run.tried == cands;
  }

  /** A render error other than a failed lookup is final: no render call
      follows it and the request fails with that error's text. */
  lemma NoRetryAfterRenderError(render: Renderer, req: Request, i: nat, message: string)
    requires i < |Candidates(req)|
    requires Outcome(render, req.pathname, Candidates(req)[i]) == RenderFailed(message)
    ensures var run := TryRender(render, req);
      |run.tried| <= i + 1
      && (|run.tried| == i + 1 ==> run.final == Failure(message))
  {
    TryRenderFollowsCandidates(render, req);
  }

  /** A file request makes exactly one render call: a failed lookup is "not
      found", another error is a failure, a page is returned as rendered. */
  lemma FileRequestSingleAttempt(render: Renderer, req: Request)
    requires !req.isDirectory
    ensures var run := TryRender(render, req);
      && run.tried == [Attempt(req.template, req.curFilename)]
      && run.final == Classify(render(req.template, Vars(req.pathname, req.curFilename)))
  {
  }

  /** For a file request, whose current file name is the base name of the
      path (`Resolve`), `curNavPos` gives the directory part of the path:
      empty or ending in `/`, and followed by the base name. */
  lemma CurNavPosOfFileRequest(pathname: string, withIndexPage: Val)
    requires pathname != "" && !EndsWithSep(pathname)
    ensures var f := Basename(pathname);
      var dir := CurNavPos(Vars(pathname, f), withIndexPage);
      && dir + f == pathname
      && (dir == "" || EndsWithSep(dir))
  {
    var f := Basename(pathname);
    BasenameEndsPath(pathname);
    var dir := pathname[..|pathname| - |f|];
    assert CurNavPos(Vars(pathname, f), withIndexPage) == dir;
    assert dir + f == pathname;
  }

  /** `curNavPos` gives the same answer whatever its argument. */
  lemma CurNavPosIgnoresArgument(v: Vars, w1: Val, w2: Val)
    ensures CurNavPos(v, w1) == CurNavPos(v, w2)
  {
  }
}

=== FILE: resolver.dfy ===
/** The first half of the `app.get('*')` handler: it classifies the request
    path (as `url.parse` returns it, not percent-decoded) as a directory
    request, an accepted file request or a forbidden one, and picks the first
    template to render. */
module Resolver {
  import opened PosixPath
  import opened Configuration

  /** One render call: the template path and the current file name. */
  datatype Attempt = Attempt(template: string, filename: string)

  /** A request accepted for rendering. `pending` holds the index files of
      the handler's own copy of the configured index list that are still to
      be tried, each with its template; the configured list itself is never
      touched. `path.join` is pure, so computing these templates here gives
      the same ones the retry computes. A file request never retries and
      has none pending. */
  datatype Request = Request(
    pathname: string,
    template: string,
    isDirectory: bool,
    curFilename: string,
    pending: seq<Attempt>
  )

  datatype Resolution =
    | Forbidden
      // a directory request met an empty index list: `shift()` gives
      // `undefined` and `path.join` throws (Node 0.10 and later)
    | NoIndexFile
    | Resolved(request: Request)

  /** The template for index file `filename` of directory `pathname`, with
      any leading separator dropped. */
  function IndexTemplate(pathname: string, filename: string): (t: string)
    ensures !StartsWithSep(t)
  {
    StripLeadingSep(Join([pathname, filename]))
  }

  /** The render calls for a directory's index files `files`, in order. */
  function IndexAttempts(pathname: string, files: seq<string>): seq<Attempt> {
    seq(|files|, i requires 0 <= i < |files| => Attempt(IndexTemplate(pathname, files[i]), files[i]))
  }

  lemma IndexAttemptAt(pathname: string, files: seq<string>, i: nat)
    requires i < |files|
    ensures IndexAttempts(pathname, files)[i] == Attempt(IndexTemplate(pathname, files[i]), files[i])
  {
  }

  /** No template is absolute. */
  predicate AllRelative(attempts: seq<Attempt>) {
    forall k :: 0 <= k < |attempts| ==> !StartsWithSep(attempts[k].template)
  }

  lemma IndexAttemptsRelative(pathname: string, files: seq<string>)
    ensures AllRelative(IndexAttempts(pathname, files))
  {
    forall k | 0 <= k < |files|
      ensures !StartsWithSep(IndexAttempts(pathname, files)[k].template)
    {
      IndexAttemptAt(pathname, files, k);
    }
  }

  /** For an absolute request path the index template names the directory's
      names followed by the index file's, `.` and `..` resolved. */
  lemma IndexTemplateNames(pathname: string, filename: string)
    requires StartsWithSep(pathname)
    ensures Names(IndexTemplate(pathname, filename)) == Collapse(Names(pathname) + Names(filename), false)
  {
    NamesOfStripLeadingSep(Join([pathname, filename]));
    NamesOfJoinAbsolute(pathname, filename);
  }

  /** The template for a file request, with any leading separator dropped. */
  function FileTemplate(pathname: string): (t: string)
    ensures !StartsWithSep(t)
  {
    StripLeadingSep(Join([pathname]))
  }

  /** For an absolute request path the file template names the path's names,
      `.` and `..` resolved. */
  lemma FileTemplateNames(pathname: string)
    requires StartsWithSep(pathname)
    ensures Names(FileTemplate(pathname)) == Collapse(Names(pathname), false)
  {
    NamesOfStripLeadingSep(Join([pathname]));
    NamesOfJoinSingle(pathname);
  }

  /** The scan over the allowed extensions that sets `found` when one of
      them equals `ext`. */
  function ExtensionAllowed(ext: string, allowed: seq<string>): (found: bool)
    ensures found <==> ext in allowed
  {
    if |allowed| == 0 then false
    else allowed[0] == ext || ExtensionAllowed(ext, allowed[1..])
  }

  /** Classifies `pathname` under configuration `c`. */
  function Resolve(c: Config, pathname: string): (r: Resolution)
    ensures r.NoIndexFile? <==> EndsWithSep(pathname) && c.indexFiles == []
    ensures r.Forbidden? <==>
      !EndsWithSep(pathname)
      && (!HasExtension(Basename(pathname)) || Extname(pathname) !in c.allowableExtensions)
    ensures r.Resolved? ==>
      && r.request.pathname == pathname
      && !StartsWithSep(r.request.template)
      && AllRelative(r.request.pending)
      && (r.request.isDirectory <==> EndsWithSep(pathname))
    ensures r.Resolved? && r.request.isDirectory ==>
      && r.request.curFilename == c.indexFiles[0]
      && r.request.template == IndexTemplate(pathname, c.indexFiles[0])
      && r.request.pending == IndexAttempts(pathname, c.indexFiles[1..])
    ensures r.Resolved? && !r.request.isDirectory ==>
      && r.request.curFilename == Basename(pathname)
      && IsSuffix(r.request.curFilename, pathname)
      && r.request.template == FileTemplate(pathname)
      && r.request.pending == []
      && Extname(pathname) in c.allowableExtensions
  {
    if EndsWithSep(pathname) then
      if c.indexFiles == [] then NoIndexFile
      else
        var first := c.indexFiles[0];
        IndexAttemptsRelative(pathname, c.indexFiles[1..]);
        Resolved(Request(pathname, IndexTemplate(pathname, first), true, first,
                         IndexAttempts(pathname, c.indexFiles[1..])))
    else if Extname(pathname) == "" then Forbidden
    else if !ExtensionAllowed(Extname(pathname), c.allowableExtensions) then Forbidden
    else
      BasenameEndsPath(pathname);
      Resolved(Request(pathname, FileTemplate(pathname), false, Basename(pathname), []))
  }

  /** A directory request's first template and its pending ones are the
      index files' templates, in list order. */
  lemma DirectoryAttempts(c: Config, pathname: string)
    requires EndsWithSep(pathname) && c.indexFiles != []
    ensures var req := Resolve(c, pathname).request;
      [Attempt(req.template, req.curFilename)] + req.pending == IndexAttempts(pathname, c.indexFiles)
  {
    var files := c.indexFiles;
    var all, rest := IndexAttempts(pathname, files), IndexAttempts(pathname, files[1..]);
    forall i | 0 < i < |files|
      ensures all[i] == rest[i - 1]
    {
      assert files[1..][i - 1] == files[i];
    }
  }

  /** A file request without an extension is refused whatever the
      allow-list holds, even when it lists the empty extension. */
  lemma ExtensionlessIsForbidden(c: Config, pathname: string)
    requires !EndsWithSep(pathname) && !HasExtension(Basename(pathname))
    ensures Resolve(c, pathname) == Forbidden
    ensures Resolve(c.(allowableExtensions := c.allowableExtensions + [""]), pathname) == Forbidden
  {
  }

  /** For an absolute request path, the first template chosen never holds a
      `.` or `..` name, so it stays inside the served tree. */
  lemma ResolvedStaysInside(c: Config, pathname: string)
    requires StartsWithSep(pathname)
    requires Resolve(c, pathname).Resolved?
    ensures var names := Names(Resolve(c, pathname).request.template);
      forall k :: 0 <= k < |names| ==> names[k] != ".." && names[k] != "."
  {
    var req := Resolve(c, pathname).request;
    if req.isDirectory {
      JoinAbsoluteStaysInside([pathname, c.indexFiles[0]]);
    } else {
      JoinAbsoluteStaysInside([pathname]);
    }
  }
}
